=== FILE: README.md ===
# Logger configuration of the kamuy API, in Dafny

This project models how the kamuy API server configures its loggers. The server has two
independent logging paths, and both are modelled:

- **Package `util`** builds the process-wide zap logger at package initialisation. It
  looks up an environment profile (level, encoding, colour) by the lower-cased `APP_ENV`,
  lets a numeric `ZAP_LEVEL` replace the profile level, and folds an ordered list of
  functional options over a zap configuration record and a list of zap build options. The
  same package configures the Bugsnag notifier and the logger Bugsnag prints through. It
  also offers a notification hook that forwards entries at or above a threshold to Bugsnag.
- **Package `app`** and its zap adapter (`app/logger/zap`) translate an `app.LoggerConfig`
  into an internal configuration through a level table and an encoding table. The adapter
  records at most one error (the last failing check) and builds a zap logger only when no
  error was recorded. `app/logger` hands out this logger or a no-op logger. `main` picks the
  configuration from the application environment it stored in `app`'s one-cell state.

Every component is a pure function over immutable datatypes. The options are a datatype,
and `NewLogger` is a fold over a list of them. Package `util` and package `app` use
different level scales: Error is 2 in the first and 1 in the second. They are kept as
separate constants in separate modules.

Files and modules:

| file | module | models |
|---|---|---|
| results.dfy | Results | Go's nil and `(T, error)` as `Option` and `Result` |
| go_strings.dfy | GoStrings | `strings.ToLower` (ASCII), `strconv.Atoi` and `strconv.Itoa` |
| zapcore.dfy | ZapCore | zap level numbers, the int8 level type, encoder key layout, entries |
| infra.dfy | Infra | the environment manager's output, as an input record |
| util_logger.dfy | UtilLogger | src/api/util/logger.go |
| util_bugsnag.dfy | UtilBugsnag | src/api/util/bugsnag.go |
| app.dfy | App | src/api/app/app.go and src/api/app/logger.go |
| zap_adapter.dfy | ZapAdapter | src/api/app/logger/zap/zap.go |
| logger_facade.dfy | LoggerFacade | src/api/app/logger/logger.go |
| api_main.dfy | ApiMain | src/api/main.go |

Where the code and its prose description differ, the model follows the code:

- `WithColor(true)` sets the coloured level encoder even under JSON (`UtilLogger.ColorUnderJson`).
  So the rule "never colour JSON" holds only for the loggers the package itself builds from a
  profile (`UtilLogger.InitProperties`).
- `newConfig` keeps the LAST failing check's error, not the first (`ZapAdapter.LastErrorWins`).
- `NewLogger` stops at the first option error. It does not run later options.
- The exit with code 1 comes before `main` builds the app logger. The `util` logger has
  already been built during package initialisation by then.

## Model

| member | source | states |
|---|---|---|
| GoStrings.ToLower | src/api/util/logger.go:158 | the lower-cased name has the same length, maps every character through the ASCII case mapping, and contains no upper-case letter |
| GoStrings.ToLowerIdempotent | src/api/util/logger.go:158 | lower-casing twice is lower-casing once |
| GoStrings.Atoi | src/api/util/logger.go:186 | a parsed value is within the int64 range and comes from a non-empty run of digits after an optional sign; only a leading '-' gives a negative value; every sign-prefixed digit run whose magnitude fits in an int64 is accepted |
| GoStrings.DigitsValueLeadingZero | src/api/util/logger.go:186 | a leading zero does not change the value of a digit string |
| GoStrings.AtoiEquivalentSpellings | src/api/util/logger.go:186 | a '+' sign, leading zeros and "-0" parse to the same value as the canonical spelling, so ZAP_LEVEL="+2" or "007" is accepted |
| GoStrings.AtoiItoa | src/api/util/logger.go:185-189 | every int64 written in decimal parses back to itself |
| GoStrings.AtoiRejectsNonDigit | src/api/util/logger.go:186 | a character that is neither a digit nor a leading sign makes the parse fail, so such a ZAP_LEVEL is ignored |
| ZapCore.Int8 | src/api/util/logger.go:171-173 | the int8 conversion always lands in -128..127 and is the identity there |
| UtilLogger.LevelScale | src/api/util/logger.go:29-40 | Debug, Info, Warn, Error, Fatal are -1, 0, 1, 2, 3, strictly increasing |
| UtilLogger.LoggingConfig | src/api/util/logger.go:157-169 | console encoding exactly for dev/development; Info level exactly for prod/production, Debug otherwise; JSON whenever not console; colour exactly when console |
| UtilLogger.LoggingConfigCaseInsensitive | src/api/util/logger.go:157-158 | the profile depends only on the lower-cased name |
| UtilLogger.LoggingConfigFallback | src/api/util/logger.go:165-166 | any other name, the empty one included, gets (Debug, json, no colour) |
| UtilLogger.Apply | src/api/util/logger.go:48-118 | a built-in option never fails; WithAddStacktrace(l) appends exactly [AddStacktrace(int8 of l)], WithAddCaller(s) exactly [AddCaller, AddCallerSkip(s)], a callback exactly [Hooks(h)], the others nothing; options other than level/encoding/colour leave the record unchanged |
| UtilLogger.ApplyAllBuildOptions | src/api/util/logger.go:76-91 | the final build-option list is the starting list followed by each option's contribution, in list order and with the option's own level, skip or hook |
| UtilLogger.ApplyAll | src/api/util/logger.go:142-147 | folding the options only ever appends to the build-option list |
| UtilLogger.ApplyAllAppend | src/api/util/logger.go:143-147 | options run in list order: running a ++ b is running b on what a produced, and a failure in a is final |
| UtilLogger.ApplyAllEffect | src/api/util/logger.go:49-91 | last write wins for level and encoding; any WithColor(true) colours the level encoder, and WithColor(false) never uncolours it; all other fields keep their value; the build list grows by the sum of what each option appends |
| UtilLogger.ApplyAllStopsAtFirstError | src/api/util/logger.go:143-146 | the fold fails exactly when some option fails; it then returns the first failing option's error, and the options after it have no effect |
| UtilLogger.ApplyAllSeparation | src/api/util/logger.go:49-91 | build-only options never touch the record and record-only options never touch the build-option list |
| UtilLogger.Build | src/api/util/logger.go:149-153 | building succeeds exactly for a registered encoder name and keeps the record and options unchanged |
| UtilLogger.NewLogger | src/api/util/logger.go:121-154 | a built logger came from options none of which failed, has a registered encoding and carries no fields |
| UtilLogger.NewLoggerSucceeds | src/api/util/logger.go:143-153 | NewLogger succeeds exactly when no option fails and the last encoding set (default "console") is json or console |
| UtilLogger.NewLoggerDefaults | src/api/util/logger.go:122-140 | with no options: level -1, console encoding, uncoloured capital levels, output stdout, and an empty option list passed to Build |
| UtilLogger.NewLoggerEffect | src/api/util/logger.go:122-147 | the built logger's level, encoding, colour, keys, output and build-option count follow from the option list as last-write-wins over the defaults |
| UtilLogger.ColorUnderJson | src/api/util/logger.go:64-73 | WithColor(true) after WithEncoded(json) builds a JSON logger with the coloured level encoder |
| UtilLogger.With | src/api/util/logger.go:177-179 | attaching a field appends it and changes nothing else |
| UtilLogger.RunHook | src/api/util/logger.go:94-108 | the callback notifies exactly when the entry level reaches the threshold, with the entry's message, returning the client's error; otherwise it returns nil without notifying |
| UtilLogger.HookEvents | src/api/util/logger.go:113-118 | every notification carries the entry's message, and there is at most one per build option |
| UtilLogger.SingleHook | src/api/util/logger.go:94-118 | with exactly one hook installed, an entry notifies once if it reaches the threshold and not otherwise |
| UtilLogger.BugsnagNotifyOnce | src/api/util/logger.go:93-118 | adding WithBugsnagNotify(t) to hook-free options still builds, and a written entry at or above the int8 threshold notifies exactly once, otherwise never |
| UtilLogger.Emit | src/api/util/logger.go:29-40 | an entry is written exactly when its level reaches the configured level, with the logger's fields; nothing unwritten is notified |
| UtilLogger.EmitAll | src/api/util/logger.go:29-40 | over a sequence of messages the sink receives exactly the enabled ones, in order, and none below the level |
| UtilLogger.InitialLevelOverride | src/api/util/logger.go:182-189 | whatever integer ZAP_LEVEL parses to, canonical or not, becomes the level with no range check; an empty or unparsable ZAP_LEVEL keeps the profile level |
| UtilLogger.InitProperties | src/api/util/logger.go:181-204 | the package logger always builds, at the int8-truncated initial level and the profile's encoding; it is coloured exactly when console encoded, has build options [stacktrace at Error, caller, skip 0], no hook, and the field type=app |
| UtilLogger.InitNeverNotifies | src/api/util/logger.go:192-198 | with the notification option left out, no entry of the package logger ever notifies |
| UtilLogger.ProductionScenario | src/api/util/logger.go:163-164 | production without override: JSON, Info entries written, Debug entries dropped |
| UtilLogger.DevelopmentScenario | src/api/util/logger.go:159-160 | development: coloured console, Debug entries written |
| UtilLogger.OverrideScenario | src/api/util/logger.go:184-189 | ZAP_LEVEL=2 in development gives level Error: Warn dropped, Error written |
| UtilBugsnag.Hostname | src/api/util/bugsnag.go:48-53 | "localhost" exactly when APP_ENV is "development" (case-sensitive), otherwise "" |
| UtilBugsnag.NewBugsnagLogger | src/api/util/bugsnag.go:60-63 | the silent logger is returned exactly for "development" |
| UtilBugsnag.NewBugsnagLoggerProperties | src/api/util/bugsnag.go:60-75 | outside development the Bugsnag logger never panics and is at Warn, with the profile's encoding and colour, caller skip 0, no hook and the tag type=bugsnag |
| UtilBugsnag.Printf | src/api/util/bugsnag.go:77-85 | the silent logger does nothing; the zap one writes the message at Warn whenever its level allows Warn |
| UtilBugsnag.PrintfAlwaysWritten | src/api/util/bugsnag.go:64-79 | outside development every Bugsnag message is written once at Warn, tagged type=bugsnag, without notifying |
| UtilBugsnag.NewBugsnagConfiguration | src/api/util/bugsnag.go:23-44 | key and release stage pass through unchanged, the app type is "backend", no parameter filters, and "development" is never a stage to notify |
| UtilBugsnag.FromEnvProperties | src/api/util/bugsnag.go:19-44 | the configuration always builds; the release stage is listed among the stages to notify exactly for production, staging and testing (never development); the logger is silent and the host is "localhost" exactly in development |
| App.EnvType.String | src/api/app/app.go:12-14 | the text returned rebuilds the same EnvType |
| App.NamedEnvsDistinct | src/api/app/app.go:5-10 | EnvDevelopment ("development") and EnvProto ("proto") differ |
| App.SetEnv | src/api/app/app.go:19-25 | after SetEnv(e), Env() returns e |
| App.SetEnvLastWins | src/api/app/app.go:16-25 | only the latest SetEnv is visible |
| App.LevelScale | src/api/app/logger.go:18-25 | Debug, Info, Error are -1, 0, 1, strictly increasing |
| App.EncodingsDistinct | src/api/app/logger.go:30-37 | "json", "text" and "color" are distinct |
| ZapAdapter.NewConfig | src/api/app/logger/zap/zap.go:55-107 | the level is the level table's entry, or none when the level is not in the table; the encoding is the table's entry; the colour encoder exactly for "color"; time key "" exactly with NoTimestamp, all other keys fixed; the writer passes through; the error is the last failing check's |
| ZapAdapter.BuildEncoder | src/api/app/logger/zap/zap.go:135-143 | exactly "json" and "console" get an encoder (JSON exactly for "json"); anything else is an unexpected-encoding error |
| ZapAdapter.Build | src/api/app/logger/zap/zap.go:109-124 | a recorded error is returned unchanged; otherwise building succeeds exactly for json or console, with the configured level, writer and encoder keys, and options [AddCaller, AddCallerSkip(1)] |
| ZapAdapter.NewSucceedsIffValid | src/api/app/logger/zap/zap.go:18-24 | New succeeds exactly when the level and encoding are in the tables and the writer is set; otherwise it reports the last failing check; a built logger has the table's level and colours exactly for "color" |
| ZapAdapter.LastErrorWins | src/api/app/logger/zap/zap.go:60-104 | a nil writer is reported whatever else is wrong; with a writer, a bad encoding is reported over a bad level |
| ZapAdapter.Call | src/api/app/logger/zap/zap.go:34-47 | a method writes one entry at its zap level exactly when that meets the core's level; only Fatal terminates |
| ZapAdapter.SuppressionFollowsAppLevel | src/api/app/logger.go:14-16 | for a valid configuration, Debug/Info/Error entries are written exactly when their app rank is at or above the configured level; Warn is dropped only at Error; Fatal always written |
| ZapAdapter.Close | src/api/app/logger/zap/zap.go:50-52 | Close returns the flush result unchanged: nil when the flush succeeds, and the flush error otherwise |
| LoggerFacade.New | src/api/app/logger/logger.go:9-11 | New succeeds or fails exactly as the zap adapter does, with its logger or its error |
| LoggerFacade.Call | src/api/app/logger/logger.go:25-29 | the no-op logger writes nothing and never terminates, Fatal included; a zap logger behaves exactly as the zap adapter's method |
| LoggerFacade.NewSuppressesBelowLevel | src/api/app/logger.go:14-16 | the logger New hands to main writes Debug/Info/Error entries exactly when their app rank reaches the configured level, drops Warn only at Error, always writes Fatal, and terminates exactly on Fatal |
| LoggerFacade.Close | src/api/app/logger/logger.go:30 | the no-op Close always returns nil; the zap one returns the flush result unchanged |
| LoggerFacade.CloseRepeatedly | src/api/app/logger/logger.go:30 | any number of Close calls on the no-op logger all succeed; on the zap logger each call returns that call's flush result |
| LoggerFacade.NopIsSilent | src/api/app/logger/logger.go:15-30 | the logger NewNop returns is silent for every method and message, and its Close ignores flush errors |
| ApiMain.EnvFromAppEnv | src/api/main.go:29-38 | "dev"/"development" give EnvDevelopment, "proto" gives EnvProto, anything else the empty environment (case-sensitive) |
| ApiMain.LoggerConfigFor | src/api/main.go:40-51 | (Debug, color) for EnvDevelopment, (Info, json) for every other environment, always stdout and timestamps |
| ApiMain.LoggerConfigAlwaysValid | src/api/main.go:40-56 | every environment's configuration is accepted, so the logger never fails to build |
| ApiMain.SyncLogger | src/api/main.go:60-67 | both flushes are attempted in order; one line is printed per failing step, the package logger's error first and the app logger's flush error last |
| ApiMain.Run | src/api/main.go:13-27 | exit code 1 exactly when the environment check failed, before any app state changes or entries |
| ApiMain.RunSucceeds | src/api/main.go:13-20 | a valid environment exits 0 with the chosen environment current, the welcome line written once at Info, and both loggers flushed |
| ApiMain.NoLoggerFailure | src/api/main.go:52-56 | exit code 2 never happens, and the package logger built before main never panics |

## Left out

- Loading `.env`, reading the process environment and struct validation are outside the model. Their result is the input record `Infra.EnvManager`.
- The zap library itself is not modelled: encoders, the bytes of JSON or console output, ISO 8601 time, ANSI codes, sinks, `AtomicLevel`, `Sync`. The encoder choice and the level are abstract values; a flush result is an input.
- UtilLogger.Build: models only zap's encoder-name lookup ("json" or "console"); opening "stdout"/"stderr" is taken to succeed.
- UtilLogger.Emit: does not model the stack traces and caller information that the AddStacktrace/AddCaller build options add to an entry. It also drops the error a failing hook returns, which zap reports on its error output.
- ZapAdapter.Call: a core without a level is treated as writing nothing. `New` never builds such a core, and in zap it would be a nil dereference.
- GoStrings.ToLower: lower-cases ASCII letters only. Go's `strings.ToLower` also maps non-ASCII letters. This changes `LoggingConfig` for such names: Go lower-cases U+0130 to 'i', so "productİon" gets the production profile (Info) in Go but the fallback profile (Debug) in the model.
- UtilBugsnag.FromEnvProperties: states only that the release stage is listed among `NotifyReleaseStages`. Whether a report is delivered follows the Bugsnag client's own rule, which the model does not include. For example, the client may also deliver when the release stage is empty.
- UtilLogger.NewLoggerDefaults: `buildOptions` is the option list `NewLogger` passes to zap's Build. The options zap's Build adds for a development record (caller information, stack traces at Warn) are not modelled.
- `LoggerOption` is a closed datatype: the package's six options plus `Failing`, which stands for a caller-defined option that returns an error. Go's `LoggerOption` is an open function type (util/logger.go:46). A caller-defined option that succeeds with other effects cannot be expressed, so the framing in `UtilLogger.ApplyAllEffect` ("all other fields keep their value") holds only for the package's own options.
- The Bugsnag client is not modelled: `bugsnag.New`, network delivery, asynchronous dispatch, the handled-state fields of a report. A notification is an abstract event carrying the message. The notifier panic in the package `init` of bugsnag.go is out too.
- The int8 truncation of levels is written out (`ZapCore.Int8`). Nothing is proved about wrap-around beyond its range contract.
- The error text of an unexpected level prints the Debug constant instead of the offending level. The model records only that the error occurred (`ZapAdapter.UnexpectedLevel`).
- Process control and printing are outside the model: `os.Exit`, `panic`, the termination after a Fatal entry, `fmt.Print*`. Only exit codes, a termination flag and the printed error values are kept. A panic is a `Failure` result, and the lemmas show it never happens.
- Go package initialisation order and global mutable state are outside the model. The exception is `app`'s one-cell environment state, modelled as `App.State`.
- Concurrent emit calls are not modelled. `ToAppLogger` (zap.go:26-28) is not modelled either; it only wraps an existing zap logger.
- A logger has no closed state. The source never marks a logger as closed, so emitting after `Close` is neither forbidden nor modelled.

=== FILE: api_main.dfy ===
/** The program entry point: checking the environment, choosing the app environment and the
    logger configuration, logging the welcome line and flushing both loggers at exit. */
module ApiMain {
  import opened Results
  import opened ZapCore
  import App
  import Infra
  import ZapAdapter
  import LoggerFacade
  import UtilLogger

  /** `setEnv`'s table, case-sensitive; anything unknown becomes the empty environment. */
  function EnvFromAppEnv(appEnv: string): (e: App.EnvType)
    ensures e == App.EnvDevelopment <==> appEnv == "dev" || appEnv == "development"
    ensures e == App.EnvProto <==> appEnv == "proto"
    ensures e != App.EnvDevelopment && e != App.EnvProto ==> e == App.EnvType("")
  {
    if appEnv == "dev" || appEnv == "development" then App.EnvDevelopment
    else if appEnv == "proto" then App.EnvProto
    else App.EnvType("")
  }

  /** `getLogger`'s configuration: colour text at Debug in development, JSON at Info anywhere
      else, always to stdout and with timestamps. */
  function LoggerConfigFor(env: App.EnvType): (c: App.LoggerConfig)
    ensures c.out == Some(App.Stdout) && !c.noTimestamp
    ensures env == App.EnvDevelopment ==> c.loggingLevel == App.LoggingLvlDebug && c.loggingEncode == App.LoggingEncColorText
    ensures env != App.EnvDevelopment ==> c.loggingLevel == App.LoggingLvlInfo && c.loggingEncode == App.LoggingEncJSON
  {
    var zero := App.ZeroLoggerConfig;
    var c :=
      if env == App.EnvDevelopment then zero.(loggingLevel := App.LoggingLvlDebug, loggingEncode := App.LoggingEncColorText)
      else zero.(loggingLevel := App.LoggingLvlInfo, loggingEncode := App.LoggingEncJSON);
    c.(out := Some(App.Stdout))
  }

  /** Every environment gets a configuration the zap adapter accepts, so `getLogger` never exits. */
  lemma LoggerConfigAlwaysValid(env: App.EnvType)
    ensures ZapAdapter.Valid(LoggerConfigFor(env))
    ensures LoggerFacade.New(LoggerConfigFor(env)).Success?
  {
  }

  /** The two flush steps of `syncLogger`. */
  datatype SyncStep = SyncUtilLogger | CloseAppLogger

  /** The steps attempted and the errors printed, in order. */
  datatype SyncReport = SyncReport(attempted: seq<SyncStep>, printed: seq<string>)

  function ErrorLines(err: Option<string>): (r: seq<string>)
    ensures |r| == if err.Some? then 1 else 0
    ensures err.Some? ==> r[0] == err.value
  {
    match err
    case Some(e) => [e]
    case None => []
  }

  /** `syncLogger`: flush the package logger, then close the app logger, printing each error;
      a failure of the first does not skip the second. */
  function SyncLogger(l: LoggerFacade.AppLogger, utilSyncErr: Option<string>, appSyncErr: Option<string>): (r: SyncReport)
    ensures r.attempted == [SyncUtilLogger, CloseAppLogger]
    ensures |r.printed| == (if utilSyncErr.Some? then 1 else 0) + (if LoggerFacade.Close(l, appSyncErr).Some? then 1 else 0)
    ensures utilSyncErr.Some? ==> r.printed[0] == utilSyncErr.value
    ensures l.ZapLogger? && appSyncErr.Some? ==> |r.printed| >= 1 && r.printed[|r.printed| - 1] == appSyncErr.value
    ensures l.NopLogger? ==> r.printed == ErrorLines(utilSyncErr)
  {
    SyncReport([SyncUtilLogger, CloseAppLogger],
               ErrorLines(utilSyncErr) + ErrorLines(LoggerFacade.Close(l, appSyncErr)))
  }

  const WelcomeMessage: string := "Welcome to Kamui API v.01"

  /** How the process ends. */
  datatype Exit = Exit(code: int, state: App.State, written: seq<Entry>, sync: Option<SyncReport>)

  /** `main`. The flush results of the two loggers are inputs; an `os.Exit` skips the deferred flush. */
  function Run(em: Infra.EnvManager, utilSyncErr: Option<string>, appSyncErr: Option<string>): (r: Exit)
    ensures r.code == 1 <==> em.failed
    ensures r.code == 1 ==> r.state == App.InitialState && r.written == [] && r.sync.None?
  {
    if em.failed then Exit(1, App.InitialState, [], None)
    else
      var st := App.SetEnv(App.InitialState, EnvFromAppEnv(em.appEnv));
      match LoggerFacade.New(LoggerConfigFor(App.Env(st)))
      case Failure(_) => Exit(2, st, [], None)
      case Success(l) =>
        var out := LoggerFacade.Call(l, App.Info, WelcomeMessage);
        Exit(0, st, out.written, Some(SyncLogger(l, utilSyncErr, appSyncErr)))
  }

  /** A valid environment always runs to completion: exit code 0, never 2, the environment
      chosen by `setEnv` is current, the welcome line is written once at Info, and both
      loggers are flushed. */
  lemma RunSucceeds(em: Infra.EnvManager, utilSyncErr: Option<string>, appSyncErr: Option<string>)
    requires !em.failed
    ensures var r := Run(em, utilSyncErr, appSyncErr);
      && r.code == 0
      && App.Env(r.state) == EnvFromAppEnv(em.appEnv)
      && r.written == [Entry(InfoLevel, WelcomeMessage, [])]
      && r.sync.Some? && r.sync.value.attempted == [SyncUtilLogger, CloseAppLogger]
  {
  }

  /** The process never exits with code 2, and the package logger built before `main` never panics. */
  lemma NoLoggerFailure(em: Infra.EnvManager, utilSyncErr: Option<string>, appSyncErr: Option<string>)
    ensures Run(em, utilSyncErr, appSyncErr).code != 2
    ensures UtilLogger.Init(em).Success?
  {
    if !em.failed {
      RunSucceeds(em, utilSyncErr, appSyncErr);
    }
    UtilLogger.InitProperties(em);
  }
}

=== FILE: app.dfy ===
/** Package `app`: the environment type and its one-cell state, and the logger interface,
    levels, encodings and configuration record the rest of the program depends on. */
module App {
  import opened Results

  // ---------------------------------------------------------------------
  // Environment

  /** Any string is an EnvType; the empty one is what unknown environments become. */
  datatype EnvType = EnvType(name: string) {

    /** `String` gives back exactly the text the value was made from. */
    function String(): (s: string)
      ensures EnvType(s) == this
    {
      name
    }
  }

  const EnvDevelopment: EnvType := EnvType("development")
  const EnvProto: EnvType := EnvType("proto")

  /** The two named environments are distinct. */
  lemma NamedEnvsDistinct()
    ensures EnvDevelopment != EnvProto
    ensures EnvDevelopment.String() == "development" && EnvProto.String() == "proto"
  {
  }

  /** The package-level `env` variable. */
  datatype State = State(env: EnvType)

  /** The process starts in the development environment. */
  const InitialState: State := State(EnvDevelopment)

  function Env(st: State): EnvType {
    st.env
  }

  /** After `SetEnv(e)`, `Env()` returns `e`. */
  function SetEnv(st: State, e: EnvType): (st': State)
    ensures Env(st') == e
  {
    st.(env := e)
  }

  /** Only the latest `SetEnv` is visible. */
  lemma SetEnvLastWins(st: State, a: EnvType, b: EnvType)
    ensures Env(SetEnv(SetEnv(st, a), b)) == b
    ensures SetEnv(SetEnv(st, a), b) == SetEnv(st, b)
  {
  }

  // ---------------------------------------------------------------------
  // Logger interface

  /** The emit methods of the Logger interface (besides `Close`). */
  datatype Method = Debug | Info | Warn | Error | Fatal

  /** Entries below the configured level are suppressed. This scale is this package's own:
      Error is 1 here, not 2 as in package `util`. */
  type LoggingLevel = int

  const LoggingLvlDebug: LoggingLevel := -1
  const LoggingLvlInfo: LoggingLevel := 0
  const LoggingLvlError: LoggingLevel := 1

  lemma LevelScale()
    ensures LoggingLvlDebug == -1 && LoggingLvlInfo == 0 && LoggingLvlError == 1
    ensures LoggingLvlDebug < LoggingLvlInfo < LoggingLvlError
  {
  }

  /** Any string is a LoggingEncode; these three are the named ones. */
  type LoggingEncode = string

  const LoggingEncJSON: LoggingEncode := "json"
  const LoggingEncText: LoggingEncode := "text"
  const LoggingEncColorText: LoggingEncode := "color"

  lemma EncodingsDistinct()
    ensures LoggingEncJSON != LoggingEncText && LoggingEncText != LoggingEncColorText
    ensures LoggingEncJSON != LoggingEncColorText
  {
  }

  /** The output destination; `None` in `LoggerConfig.out` is a nil writer. */
  datatype Writer = Stdout | Stderr | Buffer(id: nat)

  /** `LoggerConfig`: level, encoding, output and the timestamp switch. */
  datatype LoggerConfig = LoggerConfig(
    loggingLevel: LoggingLevel,
    loggingEncode: LoggingEncode,
    out: Option<Writer>,
    noTimestamp: bool)

  /** The zero value: Info level (0), empty encoding, nil output, timestamps kept. */
  const ZeroLoggerConfig: LoggerConfig := LoggerConfig(0, "", None, false)
}

=== FILE: go_strings.dfy ===
/** The two pieces of Go's standard string library the configuration code relies on:
    `strings.ToLower` (ASCII part) and `strconv.Atoi`, with `strconv.Itoa` as its inverse. */
module GoStrings {
  import opened Results

  predicate IsUpper(c: char) {
    'A' <= c <= 'Z'
  }

  function LowerChar(c: char): (d: char)
    ensures !IsUpper(d)
    ensures !IsUpper(c) ==> d == c
  {
    if IsUpper(c) then (c as int + 32) as char else c
  }

  /** `strings.ToLower` restricted to ASCII letters. */
  function ToLower(s: string): (r: string)
    ensures |r| == |s|
    ensures forall i :: 0 <= i < |s| ==> r[i] == LowerChar(s[i])
    ensures forall i :: 0 <= i < |r| ==> !IsUpper(r[i])
  {
    if s == [] then [] else [LowerChar(s[0])] + ToLower(s[1..])
  }

  /** Lower-casing a string that is already lower case changes nothing. */
  lemma ToLowerIdempotent(s: string)
    ensures ToLower(ToLower(s)) == ToLower(s)
  {
  }

  // ---------------------------------------------------------------------
  // Decimal integers

  const MinInt64: int := -0x8000_0000_0000_0000
  const MaxInt64: int := 0x7FFF_FFFF_FFFF_FFFF

  predicate IsDigit(c: char) {
    '0' <= c <= '9'
  }

  predicate AllDigits(s: string) {
    forall i :: 0 <= i < |s| ==> IsDigit(s[i])
  }

  /** The value of a string of decimal digits, most significant first. */
  function DigitsValue(s: string): nat
    requires AllDigits(s)
  {
    if s == [] then 0 else 10 * DigitsValue(s[..|s| - 1]) + (s[|s| - 1] as int - '0' as int)
  }

  /** The digits after an optional leading sign. */
  function Unsigned(s: string): string {
    if s != [] && (s[0] == '-' || s[0] == '+') then s[1..] else s
  }

  /** `strconv.Atoi` on a 64-bit platform: an optional sign followed by at least one
      decimal digit, whose value fits in an int64; anything else is an error (None). */
  function Atoi(s: string): (r: Option<int>)
    ensures r.Some? ==> MinInt64 <= r.value <= MaxInt64
    ensures r.Some? ==> Unsigned(s) != [] && AllDigits(Unsigned(s))
    ensures r.Some? ==> (r.value < 0 ==> s[0] == '-')
    ensures Unsigned(s) != [] && AllDigits(Unsigned(s)) && DigitsValue(Unsigned(s)) <= MaxInt64 ==> r.Some?
  {
    var digits := Unsigned(s);
    if digits == [] || !AllDigits(digits) then None
    else
      var n: int := if s[0] == '-' then -(DigitsValue(digits) as int) else DigitsValue(digits);
      if MinInt64 <= n <= MaxInt64 then Some(n) else None
  }

  function DigitChar(d: nat): (c: char)
    requires d < 10
    ensures IsDigit(c)
  {
    ('0' as int + d) as char
  }

  /** The shortest decimal spelling of a natural number. */
  function NatDigits(n: nat): (s: string)
    ensures s != [] && AllDigits(s)
    decreases n
  {
    if n < 10 then [DigitChar(n)] else NatDigits(n / 10) + [DigitChar(n % 10)]
  }

  /** `strconv.Itoa`. */
  function Itoa(n: int): string {
    if n < 0 then "-" + NatDigits(-n) else NatDigits(n)
  }

  lemma {:induction false} DigitsValueOfNatDigits(n: nat)
    ensures DigitsValue(NatDigits(n)) == n
    decreases n
  {
    var s := NatDigits(n);
    if n >= 10 {
      assert s[..|s| - 1] == NatDigits(n / 10);
      DigitsValueOfNatDigits(n / 10);
    }
  }

  /** Every int64 survives a trip through its decimal spelling. */
  lemma AtoiItoa(n: int)
    requires MinInt64 <= n <= MaxInt64
    ensures Atoi(Itoa(n)) == Some(n)
  {
    var s := Itoa(n);
    if n < 0 {
      DigitsValueOfNatDigits(-n);
      assert Unsigned(s) == NatDigits(-n);
    } else {
      DigitsValueOfNatDigits(n);
      assert Unsigned(s) == NatDigits(n);
    }
  }

  /** A leading zero adds nothing to a digit string's value. */
  lemma {:induction false} DigitsValueLeadingZero(d: string)
    requires AllDigits(d)
    ensures AllDigits("0" + d) && DigitsValue("0" + d) == DigitsValue(d)
    decreases |d|
  {
    var z := "0" + d;
    assert AllDigits(z) by {
      forall i | 0 <= i < |z| ensures IsDigit(z[i]) {
        if i > 0 { assert z[i] == d[i - 1]; }
      }
    }
    if d != [] {
      var init := d[..|d| - 1];
      assert z[..|z| - 1] == "0" + init;
      assert z[|z| - 1] == d[|d| - 1];
      DigitsValueLeadingZero(init);
    }
  }

  /** The non-canonical spellings `strconv.Atoi` accepts: a '+' sign, leading zeros and "-0"
      parse to the same value as the canonical digits. */
  lemma AtoiEquivalentSpellings(d: string)
    requires d != [] && AllDigits(d)
    ensures Atoi("+" + d) == Atoi(d)
    ensures Atoi("0" + d) == Atoi(d)
    ensures Atoi("-0" + d) == Atoi("-" + d)
    ensures Atoi("-0") == Some(0)
  {
    DigitsValueLeadingZero(d);
    assert Unsigned("+" + d) == d;
    assert Unsigned("-" + d) == d;
    assert Unsigned("-0" + d) == "0" + d;
    assert Unsigned("0" + d) == "0" + d;
    assert Unsigned("-0") == "0";
  }

  /** A character that is neither a digit nor a leading sign makes the parse fail. */
  lemma AtoiRejectsNonDigit(s: string, i: nat)
    requires i < |s| && !IsDigit(s[i])
    requires i > 0 || (s[0] != '-' && s[0] != '+')
    ensures Atoi(s).None?
  {
  }
}

=== FILE: infra.dfy ===
/** The environment manager's output, taken as an input: loading `.env`, reading the process
    environment and struct validation happen outside the model. */
module Infra {

  /** APP_ENV, ZAP_LEVEL, BUGSNAG_KEY and whether validation reported an error. */
  datatype EnvManager = EnvManager(appEnv: string, zapLevel: string, bugsnagKey: string, failed: bool)
}

=== FILE: logger_facade.dfy ===
/** Package `app/logger`: the constructors handed to the rest of the program, a zap-backed
    logger or a logger that does nothing. */
module LoggerFacade {
  import opened Results
  import App
  import ZapAdapter

  /** An `app.Logger` value: the zap implementation or the no-op one. */
  datatype AppLogger = ZapLogger(z: ZapAdapter.Logger) | NopLogger

  /** `New` delegates to the zap implementation and succeeds or fails exactly as it does. */
  function New(c: App.LoggerConfig): (r: Result<AppLogger, ZapAdapter.ConfigError>)
    ensures r.Success? <==> ZapAdapter.Valid(c)
    ensures r.Success? ==> r.value.ZapLogger? && r.value.z == ZapAdapter.New(c).value
    ensures r.Failure? ==> r.error == ZapAdapter.New(c).error
  {
    ZapAdapter.NewSucceedsIffValid(c);
    match ZapAdapter.New(c)
    case Failure(e) => Failure(e)
    case Success(z) => Success(ZapLogger(z))
  }

  /** `NewNop` never fails. */
  function NewNop(): AppLogger {
    NopLogger
  }

  /** An interface method call. The no-op logger writes nothing and never terminates, even for Fatal. */
  function Call(l: AppLogger, m: App.Method, msg: string): (r: ZapAdapter.Outcome)
    ensures l.NopLogger? ==> r.written == [] && !r.terminated
    ensures l.ZapLogger? ==> r == ZapAdapter.Call(l.z, m, msg)
  {
    match l
    case NopLogger => ZapAdapter.Outcome([], false)
    case ZapLogger(z) => ZapAdapter.Call(z, m, msg)
  }

  /** `Close`: the zap logger reports its flush result; the no-op logger always succeeds. */
  function Close(l: AppLogger, syncErr: Option<string>): (r: Option<string>)
    ensures l.NopLogger? ==> r.None?
    ensures l.ZapLogger? ==> r == syncErr
  {
    match l
    case NopLogger => None
    case ZapLogger(z) => ZapAdapter.Close(z, syncErr)
  }

  /** Close a logger once per element of `syncErrs` (the flush result each time) and collect the results. */
  method CloseRepeatedly(l: AppLogger, syncErrs: seq<Option<string>>) returns (errs: seq<Option<string>>)
    ensures |errs| == |syncErrs|
    ensures l.NopLogger? ==> forall k :: 0 <= k < |errs| ==> errs[k].None?
    ensures l.ZapLogger? ==> errs == syncErrs
  {
    errs := [];
    var i := 0;
    while i < |syncErrs|
      invariant 0 <= i <= |syncErrs|
      invariant |errs| == i
      invariant l.NopLogger? ==> forall k :: 0 <= k < i ==> errs[k].None?
      invariant l.ZapLogger? ==> errs == syncErrs[..i]
    {
      errs := errs + [Close(l, syncErrs[i])];
      i := i + 1;
    }
  }

  /** The logger `New` returns for a valid configuration writes a Debug, Info or Error entry
      exactly when its app rank is at or above the configured level, writes Warn unless the
      level is Error, always writes Fatal, and terminates exactly on Fatal. */
  lemma NewSuppressesBelowLevel(c: App.LoggerConfig, m: App.Method, msg: string)
    requires ZapAdapter.Valid(c)
    ensures New(c).Success?
    ensures m != App.Warn && m != App.Fatal ==>
      (Call(New(c).value, m, msg).written != [] <==> ZapAdapter.AppRank(m) >= c.loggingLevel)
    ensures m == App.Warn ==>
      (Call(New(c).value, m, msg).written != [] <==> c.loggingLevel != App.LoggingLvlError)
    ensures m == App.Fatal ==> Call(New(c).value, m, msg).written != []
    ensures Call(New(c).value, m, msg).terminated <==> m == App.Fatal
  {
    ZapAdapter.SuppressionFollowsAppLevel(c, m, msg);
  }

  /** The no-op logger is silent for every method and message. */
  lemma NopIsSilent(m: App.Method, msg: string)
    ensures Call(NewNop(), m, msg) == ZapAdapter.Outcome([], false)
    ensures Close(NewNop(), Some(msg)) == None
  {
  }
}

=== FILE: results.dfy ===
/** Option and Result, shared by every module of the model. */
module Results {

  /** An optional value; `None` stands for Go's nil. */
  datatype Option<+T> = None | Some(value: T)

  /** A value or an error, the model of Go's `(T, error)` return pair. */
  datatype Result<+T, +E> = Success(value: T) | Failure(error: E)
}

=== FILE: util_bugsnag.dfy ===
/** The Bugsnag notifier configuration of the `util` package: the configuration record, the
    host name rule, and the logger Bugsnag writes its own diagnostics through. */
module UtilBugsnag {
  import opened Results
  import opened ZapCore
  import U = UtilLogger
  import Infra

  const AppEnvDev: string := "development"

  /** The device name reported to Bugsnag: "localhost" for a developer's machine, otherwise
      left to the client. The comparison is exact, so "dev" does not count. */
  function Hostname(appEnv: string): (h: string)
    ensures h == "localhost" <==> appEnv == AppEnvDev
    ensures h != "localhost" ==> h == ""
  {
    if appEnv == AppEnvDev then "localhost" else ""
  }

  /** The logger Bugsnag is given: silent in development, otherwise a zap logger. */
  datatype BugsnagLogger = NopBugsnagLogger | ZapBugsnagLogger(logger: U.Logger)

  /** The options the Bugsnag logger is built with: level 1 (Warn), the environment's
      encoding and colour, caller information without extra skip. */
  function BugsnagLoggerOptions(appEnv: string): seq<U.LoggerOption> {
    var profile := U.LoggingConfig(appEnv);
    [ U.WithLoggingLevel(1), U.WithEncoded(profile.encode), U.WithColor(profile.color), U.WithAddCaller(0) ]
  }

  /** `newBugsnagLogger`; a Failure would be the panic. */
  function NewBugsnagLogger(appEnv: string): (r: Result<BugsnagLogger, U.LoggerError>)
    ensures r.Success? && r.value.NopBugsnagLogger? <==> appEnv == AppEnvDev
  {
    if appEnv == AppEnvDev then Success(NopBugsnagLogger)
    else
      match U.NewLogger(BugsnagLoggerOptions(appEnv))
      case Failure(e) => Failure(e)
      case Success(l) => Success(ZapBugsnagLogger(U.With(l, Field("type", "bugsnag"))))
  }

  /** Outside development the Bugsnag logger always builds, at Warn, with the profile's
      encoding and colour, caller information with skip 0, no hooks, and the tag type=bugsnag. */
  lemma NewBugsnagLoggerProperties(appEnv: string)
    ensures NewBugsnagLogger(appEnv).Success?
    ensures appEnv != AppEnvDev ==>
      var l := NewBugsnagLogger(appEnv).value;
      var profile := U.LoggingConfig(appEnv);
      && l.ZapBugsnagLogger?
      && l.logger.config.level == WarnLevel
      && l.logger.config.encoding == profile.encode
      && (l.logger.config.encoderConfig.encodeLevel == CapitalColorLevelEncoder <==> profile.color)
      && l.logger.buildOptions == [U.AddCaller, U.AddCallerSkip(0)]
      && l.logger.fields == [Field("type", "bugsnag")]
  {
    if appEnv != AppEnvDev {
      var options := BugsnagLoggerOptions(appEnv);
      var profile := U.LoggingConfig(appEnv);
      U.LastLevelIsLast(options, 0);
      U.LastEncodingIsLast(options, 1);
      assert U.WithColor(true) in options <==> profile.color;
      U.NewLoggerSucceeds(options);
      U.NewLoggerEffect(options);
      U.ApplyAllAppend(options[..3], options[3..], U.DefaultConfig, []);
      assert options[..3] + options[3..] == options;
      U.ApplyAllSeparation(options[..3], U.DefaultConfig, []);
    }
  }

  /** `Printf`: the zap logger writes the formatted message at Warn; the silent one does nothing. */
  function Printf(l: BugsnagLogger, message: string): (r: U.Emission)
    ensures l.NopBugsnagLogger? ==> r == U.Emission([], [])
    ensures l.ZapBugsnagLogger? && l.logger.config.level <= WarnLevel ==>
      r.written == [Entry(WarnLevel, message, l.logger.fields)]
  {
    match l
    case NopBugsnagLogger => U.Emission([], [])
    case ZapBugsnagLogger(z) => U.Emit(z, WarnLevel, message)
  }

  /** Every message Bugsnag prints through its logger outside development reaches the sink,
      tagged type=bugsnag, and never loops back into a notification. */
  lemma PrintfAlwaysWritten(appEnv: string, message: string)
    requires appEnv != AppEnvDev
    ensures NewBugsnagLogger(appEnv).Success?
    ensures Printf(NewBugsnagLogger(appEnv).value, message) ==
      U.Emission([Entry(WarnLevel, message, [Field("type", "bugsnag")])], [])
  {
    NewBugsnagLoggerProperties(appEnv);
    var l := NewBugsnagLogger(appEnv).value.logger;
    U.NoHooksNoEvents(l.buildOptions, Entry(WarnLevel, message, l.fields));
  }

  /** The bugsnag.Configuration fields this package sets. */
  datatype Configuration = Configuration(
    apiKey: string,
    appType: string,
    projectPackages: seq<string>,
    releaseStage: string,
    hostname: string,
    paramsFilters: seq<string>,
    logger: BugsnagLogger,
    notifyReleaseStages: seq<string>)

  const NotifyStages: seq<string> := ["production", "staging", "testing"]

  /** `newBugsnagConfiguration`. The host name reads the process's APP_ENV (`currentAppEnv`),
      while the logger follows the release stage argument. A Failure would be the logger's panic. */
  function NewBugsnagConfiguration(apiKey: string, releaseStage: string, currentAppEnv: string): (r: Result<Configuration, U.LoggerError>)
    ensures r.Success? ==> r.value.apiKey == apiKey && r.value.releaseStage == releaseStage
    ensures r.Success? ==> r.value.appType == "backend" && r.value.paramsFilters == []
    ensures r.Success? ==> AppEnvDev !in r.value.notifyReleaseStages
  {
    match NewBugsnagLogger(releaseStage)
    case Failure(e) => Failure(e)
    case Success(l) =>
      Success(Configuration(apiKey, "backend", ["main", "gsskt_api/**"], releaseStage,
                            Hostname(currentAppEnv), [], l, NotifyStages))
  }

  /** `NewBugsnagConfiguration`: the key and the release stage come from the environment manager. */
  function FromEnv(em: Infra.EnvManager): Result<Configuration, U.LoggerError> {
    NewBugsnagConfiguration(em.bugsnagKey, em.appEnv, em.appEnv)
  }

  /** The release stage is listed among the stages to notify. Whether a report is then delivered
      is the Bugsnag client's own decision, which is not modelled. */
  predicate NotifiesInStage(c: Configuration) {
    c.releaseStage in c.notifyReleaseStages
  }

  /** The configuration always builds; the release stage is listed among the stages to notify
      exactly for production, staging and testing, so never for development; the logger is
      silent exactly in development; the host name is "localhost" exactly in development. */
  lemma FromEnvProperties(em: Infra.EnvManager)
    ensures FromEnv(em).Success?
    ensures NotifiesInStage(FromEnv(em).value) <==> em.appEnv in {"production", "staging", "testing"}
    ensures FromEnv(em).value.logger.NopBugsnagLogger? <==> em.appEnv == AppEnvDev
    ensures FromEnv(em).value.hostname == "localhost" <==> em.appEnv == AppEnvDev
  {
    NewBugsnagLoggerProperties(em.appEnv);
  }
}

=== FILE: util_logger.dfy ===
/** The process-wide logger of the `util` package: the environment profile table, the
    functional options folded over a zap configuration record and a build-option list,
    the Bugsnag notification hook, and the `init` that wires them together. */
module UtilLogger {
  import opened Results
  import opened GoStrings
  import opened ZapCore
  import Infra

  // ---------------------------------------------------------------------
  // Levels and encodings of this package (a different scale from package `app`)

  type LoggingLevel = int

  const LoggingLevelDebug: LoggingLevel := -1
  const LoggingLevelInfo: LoggingLevel := 0
  const LoggingLevelWarn: LoggingLevel := 1
  const LoggingLevelError: LoggingLevel := 2
  const LoggingLevelFatal: LoggingLevel := 3

  /** The level constants are consecutive integers from -1, in severity order. */
  lemma LevelScale()
    ensures LoggingLevelDebug == -1 && LoggingLevelFatal == 3
    ensures LoggingLevelDebug < LoggingLevelInfo < LoggingLevelWarn < LoggingLevelError < LoggingLevelFatal
  {
  }

  /** Any string is a LoggingEncode; these two are the named ones. */
  type LoggingEncode = string

  const LoggingEncodeJSON: LoggingEncode := "json"
  const LoggingEncodeConsole: LoggingEncode := "console"

  /** `toZapLevel`: the level is narrowed to zap's int8 level type. */
  function ToZapLevel(level: LoggingLevel): int {
    Int8(level)
  }

  // ---------------------------------------------------------------------
  // Environment profile

  /** The (level, encode, color) triple `LoggingConfig` returns. */
  datatype Profile = Profile(level: LoggingLevel, encode: LoggingEncode, color: bool)

  predicate IsDevelopmentName(v: string) {
    v == "dev" || v == "development"
  }

  predicate IsStagingName(v: string) {
    v == "stg" || v == "staging"
  }

  predicate IsProductionName(v: string) {
    v == "prod" || v == "production"
  }

  /** The default profile of an application environment, looked up by its lower-cased name. */
  function LoggingConfig(appEnv: string): (p: Profile)
    ensures p.encode == LoggingEncodeConsole <==> IsDevelopmentName(ToLower(appEnv))
    ensures p.encode != LoggingEncodeConsole ==> p.encode == LoggingEncodeJSON
    ensures p.level == LoggingLevelInfo <==> IsProductionName(ToLower(appEnv))
    ensures p.level != LoggingLevelInfo ==> p.level == LoggingLevelDebug
    ensures p.color <==> p.encode == LoggingEncodeConsole
  {
    var v := ToLower(appEnv);
    if IsDevelopmentName(v) then Profile(LoggingLevelDebug, LoggingEncodeConsole, true)
    else if IsStagingName(v) then Profile(LoggingLevelDebug, LoggingEncodeJSON, false)
    else if IsProductionName(v) then Profile(LoggingLevelInfo, LoggingEncodeJSON, false)
    else Profile(LoggingLevelDebug, LoggingEncodeJSON, false)
  }

  /** The profile depends on the name only through its lower-case form. */
  lemma LoggingConfigCaseInsensitive(appEnv: string)
    ensures LoggingConfig(appEnv) == LoggingConfig(ToLower(appEnv))
  {
  }

  /** The profile of a name outside the three known groups, the empty name included. */
  lemma LoggingConfigFallback(appEnv: string)
    requires !IsDevelopmentName(ToLower(appEnv))
    requires !IsStagingName(ToLower(appEnv))
    requires !IsProductionName(ToLower(appEnv))
    ensures LoggingConfig(appEnv) == Profile(LoggingLevelDebug, LoggingEncodeJSON, false)
  {
  }

  // ---------------------------------------------------------------------
  // Configuration record, options and their fold

  /** The fields of zap.Config that `NewLogger` sets; `level` is the atomic level's value. */
  datatype Config = Config(
    level: int,
    development: bool,
    encoding: string,
    outputPaths: seq<string>,
    errorOutputPaths: seq<string>,
    encoderConfig: EncoderConfig)

  /** The configuration `NewLogger` starts from before any option runs. */
  const DefaultConfig: Config :=
    Config(Int8(-1), true, "console", ["stdout"], ["stderr"], SchemaEncoderConfig)

  /** The callback installed by `withCallback`; the only one the package builds notifies
      Bugsnag for entries at or above a threshold. */
  datatype Hook = NotifyAtOrAbove(threshold: int)

  /** zap.Option values the options append, in the order zap will apply them. */
  datatype BuildOption = AddStacktrace(level: int) | AddCaller | AddCallerSkip(skip: int) | Hooks(hook: Hook)

  /** A LoggerOption. The first six are the package's own options; `Failing` stands for any
      other mutator of the same Go function type whose call returns an error. */
  datatype LoggerOption =
    | WithLoggingLevel(level: LoggingLevel)
    | WithEncoded(encode: LoggingEncode)
    | WithColor(color: bool)
    | WithAddStacktrace(stackLevel: LoggingLevel)
    | WithAddCaller(skip: int)
    | WithCallback(hook: Hook)
    | Failing(reason: string)

  /** `WithBugsnagNotify`: the threshold is converted to zap's int8 level before the hook captures it. */
  function WithBugsnagNotify(level: LoggingLevel): LoggerOption {
    WithCallback(NotifyAtOrAbove(Int8(level)))
  }

  /** Options that only write the configuration record. */
  predicate ConfigOnly(o: LoggerOption) {
    o.WithLoggingLevel? || o.WithEncoded? || o.WithColor?
  }

  /** How many build options an option appends. */
  function AppendedCount(o: LoggerOption): nat {
    match o
    case WithAddStacktrace(_) => 1
    case WithAddCaller(_) => 2
    case WithCallback(_) => 1
    case _ => 0
  }

  /** One option applied to the configuration record and the build-option list. */
  function Apply(o: LoggerOption, cfg: Config, opts: seq<BuildOption>): (r: Result<(Config, seq<BuildOption>), string>)
    ensures r.Failure? <==> o.Failing?
    ensures r.Success? ==> |r.value.1| == |opts| + AppendedCount(o) && r.value.1[..|opts|] == opts
    ensures r.Success? && !ConfigOnly(o) ==> r.value.0 == cfg
    ensures o.WithAddStacktrace? ==> r.value.1 == opts + [AddStacktrace(ToZapLevel(o.stackLevel))]
    ensures o.WithAddCaller? ==> r.value.1 == opts + [AddCaller, AddCallerSkip(o.skip)]
    ensures o.WithCallback? ==> r.value.1 == opts + [Hooks(o.hook)]
  {
    match o
    case WithLoggingLevel(level) => Success((cfg.(level := ToZapLevel(level)), opts))
    case WithEncoded(encode) => Success((cfg.(encoding := encode), opts))
    case WithColor(color) =>
      if color then Success((cfg.(encoderConfig := cfg.encoderConfig.(encodeLevel := CapitalColorLevelEncoder)), opts))
      else Success((cfg, opts))
    case WithAddStacktrace(level) => Success((cfg, opts + [AddStacktrace(ToZapLevel(level))]))
    case WithAddCaller(skip) => Success((cfg, opts + [AddCaller, AddCallerSkip(skip)]))
    case WithCallback(hook) => Success((cfg, opts + [Hooks(hook)]))
    case Failing(reason) => Failure(reason)
  }

  /** The options run in list order; the first error stops the loop. */
  function ApplyAll(options: seq<LoggerOption>, cfg: Config, opts: seq<BuildOption>): (r: Result<(Config, seq<BuildOption>), string>)
    ensures r.Success? ==> |opts| <= |r.value.1| && r.value.1[..|opts|] == opts
    decreases |options|
  {
    if options == [] then Success((cfg, opts))
    else
      match Apply(options[0], cfg, opts)
      case Failure(e) => Failure(e)
      case Success(next) => ApplyAll(options[1..], next.0, next.1)
  }

  /** Running `a ++ b` is running `a`, then `b` on what `a` left, unless `a` already failed. */
  lemma {:induction false} ApplyAllAppend(a: seq<LoggerOption>, b: seq<LoggerOption>, cfg: Config, opts: seq<BuildOption>)
    ensures ApplyAll(a + b, cfg, opts) ==
      match ApplyAll(a, cfg, opts)
      case Failure(e) => Failure(e)
      case Success(next) => ApplyAll(b, next.0, next.1)
    decreases |a|
  {
    if a == [] {
      assert a + b == b;
    } else {
      assert (a + b)[0] == a[0];
      assert (a + b)[1..] == a[1..] + b;
      match Apply(a[0], cfg, opts)
      case Failure(e) =>
      case Success(next) => ApplyAllAppend(a[1..], b, next.0, next.1);
    }
  }

  // Reference definitions of "the last option that sets a field"

  /** The level of the last `WithLoggingLevel` in the list, if any. */
  function LastLevel(options: seq<LoggerOption>): Option<LoggingLevel> {
    if options == [] then None
    else
      match LastLevel(options[1..])
      case Some(l) => Some(l)
      case None => if options[0].WithLoggingLevel? then Some(options[0].level) else None
  }

  /** The encoding of the last `WithEncoded` in the list, if any. */
  function LastEncoding(options: seq<LoggerOption>): Option<LoggingEncode> {
    if options == [] then None
    else
      match LastEncoding(options[1..])
      case Some(e) => Some(e)
      case None => if options[0].WithEncoded? then Some(options[0].encode) else None
  }

  /** `LastLevel` finds the last level-setting option: the one at `k` when none follows it. */
  lemma {:induction false} LastLevelIsLast(options: seq<LoggerOption>, k: nat)
    requires k < |options| && options[k].WithLoggingLevel?
    requires forall j :: k < j < |options| ==> !options[j].WithLoggingLevel?
    ensures LastLevel(options) == Some(options[k].level)
    decreases |options|
  {
    if k > 0 {
      LastLevelIsLast(options[1..], k - 1);
    } else {
      LastLevelAbsent(options[1..]);
    }
  }

  lemma {:induction false} LastLevelAbsent(options: seq<LoggerOption>)
    requires forall j :: 0 <= j < |options| ==> !options[j].WithLoggingLevel?
    ensures LastLevel(options) == None
    decreases |options|
  {
    if options != [] {
      LastLevelAbsent(options[1..]);
    }
  }

  /** `LastEncoding` finds the last encoding option: the one at `k` when none follows it. */
  lemma {:induction false} LastEncodingIsLast(options: seq<LoggerOption>, k: nat)
    requires k < |options| && options[k].WithEncoded?
    requires forall j :: k < j < |options| ==> !options[j].WithEncoded?
    ensures LastEncoding(options) == Some(options[k].encode)
    decreases |options|
  {
    if k > 0 {
      LastEncodingIsLast(options[1..], k - 1);
    } else {
      LastEncodingAbsent(options[1..]);
    }
  }

  lemma {:induction false} LastEncodingAbsent(options: seq<LoggerOption>)
    requires forall j :: 0 <= j < |options| ==> !options[j].WithEncoded?
    ensures LastEncoding(options) == None
    decreases |options|
  {
    if options != [] {
      LastEncodingAbsent(options[1..]);
    }
  }

  /** The position of the first failing option, if any. */
  function FirstFailing(options: seq<LoggerOption>): (r: Option<nat>)
    ensures r.Some? ==> r.value < |options| && options[r.value].Failing?
    ensures r.Some? ==> forall j :: 0 <= j < r.value ==> !options[j].Failing?
    ensures r.None? ==> forall j :: 0 <= j < |options| ==> !options[j].Failing?
  {
    if options == [] then None
    else if options[0].Failing? then Some(0)
    else
      match FirstFailing(options[1..])
      case Some(i) => Some(i + 1)
      case None => None
  }

  /** The build options one option contributes, written out per option kind. */
  function Appended(o: LoggerOption): (r: seq<BuildOption>)
    ensures |r| == AppendedCount(o)
  {
    match o
    case WithAddStacktrace(level) => [AddStacktrace(ToZapLevel(level))]
    case WithAddCaller(skip) => [AddCaller, AddCallerSkip(skip)]
    case WithCallback(hook) => [Hooks(hook)]
    case _ => []
  }

  /** The contributions of all options, concatenated in list order. */
  function AllAppended(options: seq<LoggerOption>): seq<BuildOption> {
    if options == [] then [] else Appended(options[0]) + AllAppended(options[1..])
  }

  /** The build-option list ends up as the starting list followed by every option's
      contribution, in list order and with each option's own arguments. */
  lemma {:induction false} ApplyAllBuildOptions(options: seq<LoggerOption>, cfg: Config, opts: seq<BuildOption>)
    requires ApplyAll(options, cfg, opts).Success?
    ensures ApplyAll(options, cfg, opts).value.1 == opts + AllAppended(options)
    decreases |options|
  {
    if options != [] {
      var next := Apply(options[0], cfg, opts).value;
      assert next.1 == opts + Appended(options[0]);
      ApplyAllBuildOptions(options[1..], next.0, next.1);
      assert opts + Appended(options[0]) + AllAppended(options[1..]) == opts + AllAppended(options);
    }
  }

  /** The sum of what every option appends. */
  function TotalAppended(options: seq<LoggerOption>): nat {
    if options == [] then 0 else AppendedCount(options[0]) + TotalAppended(options[1..])
  }

  /** Last write wins for the level and the encoding; colour is switched on by any
      `WithColor(true)` and never off; every other field keeps its value; the build-option
      list grows by exactly what the options append. */
  lemma {:induction false} ApplyAllEffect(options: seq<LoggerOption>, cfg: Config, opts: seq<BuildOption>)
    requires ApplyAll(options, cfg, opts).Success?
    ensures var (c, o) := ApplyAll(options, cfg, opts).value;
      && c.level == (match LastLevel(options) case Some(l) => ToZapLevel(l) case None => cfg.level)
      && c.encoding == (match LastEncoding(options) case Some(e) => e case None => cfg.encoding)
      && c.encoderConfig.encodeLevel ==
           (if WithColor(true) in options then CapitalColorLevelEncoder else cfg.encoderConfig.encodeLevel)
      && c.encoderConfig.(encodeLevel := cfg.encoderConfig.encodeLevel) == cfg.encoderConfig
      && c.development == cfg.development
      && c.outputPaths == cfg.outputPaths
      && c.errorOutputPaths == cfg.errorOutputPaths
      && |o| == |opts| + TotalAppended(options)
    decreases |options|
  {
    if options != [] {
      var next := Apply(options[0], cfg, opts).value;
      ApplyAllEffect(options[1..], next.0, next.1);
      assert WithColor(true) in options <==> options[0] == WithColor(true) || WithColor(true) in options[1..] by {
        assert options == [options[0]] + options[1..];
      }
    }
  }

  /** The first failing option's error is the result, and nothing after it matters. */
  lemma {:induction false} ApplyAllStopsAtFirstError(options: seq<LoggerOption>, cfg: Config, opts: seq<BuildOption>)
    ensures ApplyAll(options, cfg, opts).Failure? <==> FirstFailing(options).Some?
    ensures FirstFailing(options).Some? ==>
      var i := FirstFailing(options).value;
      && ApplyAll(options, cfg, opts) == Failure(options[i].reason)
      && ApplyAll(options, cfg, opts) == ApplyAll(options[..i + 1], cfg, opts)
    decreases |options|
  {
    if options != [] {
      match Apply(options[0], cfg, opts)
      case Failure(e) =>
        assert options[..1] == [options[0]];
      case Success(next) =>
        ApplyAllStopsAtFirstError(options[1..], next.0, next.1);
        if FirstFailing(options).Some? {
          var i := FirstFailing(options).value;
          assert options[..i + 1][1..] == options[1..][..i];
        }
    }
  }

  /** Options that do not touch the record leave it alone, and record-only options never
      touch the build-option list. */
  lemma {:induction false} ApplyAllSeparation(options: seq<LoggerOption>, cfg: Config, opts: seq<BuildOption>)
    requires ApplyAll(options, cfg, opts).Success?
    ensures (forall i :: 0 <= i < |options| ==> !ConfigOnly(options[i])) ==> ApplyAll(options, cfg, opts).value.0 == cfg
    ensures (forall i :: 0 <= i < |options| ==> ConfigOnly(options[i])) ==> ApplyAll(options, cfg, opts).value.1 == opts
    decreases |options|
  {
    if options != [] {
      var next := Apply(options[0], cfg, opts).value;
      ApplyAllSeparation(options[1..], next.0, next.1);
    }
  }

  // ---------------------------------------------------------------------
  // Building the logger

  /** A built zap logger: its configuration, the options `NewLogger` passes to Build, and
      the fields attached with `With`. The options zap's Build derives from the record itself
      (caller information and Warn stack traces for a development record) are not modelled. */
  datatype Logger = Logger(config: Config, buildOptions: seq<BuildOption>, fields: seq<Field>)

  datatype LoggerError = OptionError(reason: string) | NoEncoderRegistered(encoding: string)

  /** zap's encoder registry knows these two names. */
  predicate EncoderRegistered(encoding: string) {
    encoding == "json" || encoding == "console"
  }

  /** zap.Config.Build: only the encoder lookup can fail; "stdout" and "stderr" always open. */
  function Build(cfg: Config, opts: seq<BuildOption>): (r: Result<Logger, LoggerError>)
    ensures r.Success? <==> EncoderRegistered(cfg.encoding)
    ensures r.Success? ==> r.value == Logger(cfg, opts, [])
    ensures r.Failure? ==> r.error == NoEncoderRegistered(cfg.encoding)
  {
    if EncoderRegistered(cfg.encoding) then Success(Logger(cfg, opts, []))
    else Failure(NoEncoderRegistered(cfg.encoding))
  }

  /** `NewLogger`: fold the options over the default record and an empty build-option list, then build. */
  function NewLogger(options: seq<LoggerOption>): (r: Result<Logger, LoggerError>)
    ensures r.Success? ==> forall j :: 0 <= j < |options| ==> !options[j].Failing?
    ensures r.Success? ==> EncoderRegistered(r.value.config.encoding) && r.value.fields == []
  {
    ApplyAllStopsAtFirstError(options, DefaultConfig, []);
    match ApplyAll(options, DefaultConfig, [])
    case Failure(e) => Failure(OptionError(e))
    case Success(built) => Build(built.0, built.1)
  }

  /** `NewLogger` succeeds exactly when no option fails and the last encoding set, or the
      default "console", names a registered encoder. */
  lemma NewLoggerSucceeds(options: seq<LoggerOption>)
    ensures NewLogger(options).Success? <==>
      && FirstFailing(options).None?
      && EncoderRegistered(match LastEncoding(options) case Some(e) => e case None => "console")
  {
    ApplyAllStopsAtFirstError(options, DefaultConfig, []);
    if FirstFailing(options).None? {
      ApplyAllEffect(options, DefaultConfig, []);
    }
  }

  /** With no options the logger is at Debug, console encoded, uncoloured, writing to stdout. */
  lemma NewLoggerDefaults()
    ensures NewLogger([]).Success?
    ensures var l := NewLogger([]).value;
      && l.config.level == DebugLevel
      && l.config.encoding == "console"
      && l.config.encoderConfig.encodeLevel == CapitalLevelEncoder
      && l.config.outputPaths == ["stdout"]
      && l.buildOptions == []
  {
  }

  /** The properties of `NewLogger` that follow from its options alone. */
  lemma NewLoggerEffect(options: seq<LoggerOption>)
    requires NewLogger(options).Success?
    ensures var l := NewLogger(options).value;
      && l.config.level == (match LastLevel(options) case Some(lv) => ToZapLevel(lv) case None => DebugLevel)
      && l.config.encoding == (match LastEncoding(options) case Some(e) => e case None => "console")
      && (l.config.encoderConfig.encodeLevel == CapitalColorLevelEncoder <==> WithColor(true) in options)
      && l.config.encoderConfig.(encodeLevel := CapitalLevelEncoder) == SchemaEncoderConfig
      && l.config.outputPaths == ["stdout"]
      && |l.buildOptions| == TotalAppended(options)
  {
    ApplyAllEffect(options, DefaultConfig, []);
  }

  /** `WithColor(true)` colours the level even when the encoding is JSON. */
  lemma ColorUnderJson()
    ensures NewLogger([WithEncoded(LoggingEncodeJSON), WithColor(true)]).Success?
    ensures var l := NewLogger([WithEncoded(LoggingEncodeJSON), WithColor(true)]).value;
      l.config.encoding == "json" && l.config.encoderConfig.encodeLevel == CapitalColorLevelEncoder
  {
    var options := [WithEncoded(LoggingEncodeJSON), WithColor(true)];
    LastEncodingIsLast(options, 0);
    NewLoggerSucceeds(options);
    NewLoggerEffect(options);
  }

  /** `Logger.With`: attach one field to every later entry. */
  function With(l: Logger, f: Field): (r: Logger)
    ensures r.config == l.config && r.buildOptions == l.buildOptions
    ensures r.fields == l.fields + [f]
  {
    l.(fields := l.fields + [f])
  }

  // ---------------------------------------------------------------------
  // Emission and the notification hook

  /** The event handed to the alerting client; the handled-state it carries is constant. */
  datatype NotifyEvent = NotifyEvent(message: string)

  /** What the callback did: the event it sent, if any, and the error it returned. */
  datatype CallbackResult = CallbackResult(event: Option<NotifyEvent>, err: Option<string>)

  /** The Bugsnag callback run on an entry; `notifyErr` is what the client's Notify returns. */
  function RunHook(h: Hook, e: Entry, notifyErr: Option<string>): (r: CallbackResult)
    ensures r.event.Some? <==> e.level >= h.threshold
    ensures r.event.Some? ==> r.event.value.message == e.message && r.err == notifyErr
    ensures r.event.None? ==> r.err.None?
  {
    if e.level >= h.threshold then CallbackResult(Some(NotifyEvent(e.message)), notifyErr)
    else CallbackResult(None, None)
  }

  /** The notify events of every hook in the build-option list, in order, for one entry. */
  function HookEvents(opts: seq<BuildOption>, e: Entry): (r: seq<NotifyEvent>)
    ensures |r| <= |opts|
    ensures forall k :: 0 <= k < |r| ==> r[k].message == e.message
  {
    if opts == [] then []
    else
      var rest := HookEvents(opts[1..], e);
      if opts[0].Hooks? then
        match RunHook(opts[0].hook, e, None).event
        case Some(ev) => [ev] + rest
        case None => rest
      else rest
  }

  lemma {:induction false} HookEventsAppend(a: seq<BuildOption>, b: seq<BuildOption>, e: Entry)
    ensures HookEvents(a + b, e) == HookEvents(a, e) + HookEvents(b, e)
    decreases |a|
  {
    if a == [] {
      assert a + b == b;
    } else {
      assert (a + b)[1..] == a[1..] + b;
      HookEventsAppend(a[1..], b, e);
    }
  }

  predicate NoHooks(opts: seq<BuildOption>) {
    forall i :: 0 <= i < |opts| ==> !opts[i].Hooks?
  }

  lemma {:induction false} NoHooksNoEvents(opts: seq<BuildOption>, e: Entry)
    requires NoHooks(opts)
    ensures HookEvents(opts, e) == []
    decreases |opts|
  {
    if opts != [] {
      NoHooksNoEvents(opts[1..], e);
    }
  }

  /** With exactly one hook installed, an entry notifies once when it meets the threshold and not otherwise. */
  lemma SingleHook(pre: seq<BuildOption>, h: Hook, post: seq<BuildOption>, e: Entry)
    requires NoHooks(pre) && NoHooks(post)
    ensures HookEvents(pre + [Hooks(h)] + post, e) ==
      (if e.level >= h.threshold then [NotifyEvent(e.message)] else [])
  {
    HookEventsAppend(pre + [Hooks(h)], post, e);
    HookEventsAppend(pre, [Hooks(h)], e);
    NoHooksNoEvents(pre, e);
    NoHooksNoEvents(post, e);
  }

  /** What one emit call produces: the entries written to the sink and the notify events. */
  datatype Emission = Emission(written: seq<Entry>, notified: seq<NotifyEvent>)

  /** Emit one message. The core writes it only when it meets the logger's level, and hooks
      only see entries the core writes. */
  function Emit(l: Logger, level: int, msg: string): (r: Emission)
    ensures |r.written| <= 1
    ensures r.written != [] <==> Enabled(l.config.level, level)
    ensures r.written != [] ==> r.written[0] == Entry(level, msg, l.fields)
    ensures r.written == [] ==> r.notified == []
  {
    var e := Entry(level, msg, l.fields);
    if Enabled(l.config.level, level) then Emission([e], HookEvents(l.buildOptions, e))
    else Emission([], [])
  }

  /** One message per request, in order. */
  datatype Request = Request(level: int, message: string)

  /** The entries a sequence of requests writes: those at or above the logger's level, in order. */
  function WrittenEntries(l: Logger, reqs: seq<Request>): seq<Entry> {
    if reqs == [] then []
    else
      var last := reqs[|reqs| - 1];
      WrittenEntries(l, reqs[..|reqs| - 1])
        + (if Enabled(l.config.level, last.level) then [Entry(last.level, last.message, l.fields)] else [])
  }

  /** Emit a sequence of requests and collect the sink's content: no written entry is lost and
      no entry below the level is written. */
  method EmitAll(l: Logger, reqs: seq<Request>) returns (sink: seq<Entry>)
    ensures sink == WrittenEntries(l, reqs)
    ensures forall k :: 0 <= k < |sink| ==> Enabled(l.config.level, sink[k].level)
    ensures |sink| <= |reqs|
  {
    sink := [];
    var i := 0;
    while i < |reqs|
      invariant 0 <= i <= |reqs|
      invariant sink == WrittenEntries(l, reqs[..i])
      invariant forall k :: 0 <= k < |sink| ==> Enabled(l.config.level, sink[k].level)
      invariant |sink| <= i
    {
      var em := Emit(l, reqs[i].level, reqs[i].message);
      assert reqs[..i + 1][..i] == reqs[..i];
      sink := sink + em.written;
      i := i + 1;
    }
    assert reqs[..|reqs|] == reqs;
  }

  /** Options without a callback never install a hook. */
  lemma {:induction false} ApplyAllNoHooks(options: seq<LoggerOption>, cfg: Config, opts: seq<BuildOption>)
    requires ApplyAll(options, cfg, opts).Success?
    requires NoHooks(opts)
    requires forall i :: 0 <= i < |options| ==> !options[i].WithCallback?
    ensures NoHooks(ApplyAll(options, cfg, opts).value.1)
    decreases |options|
  {
    if options != [] {
      var next := Apply(options[0], cfg, opts).value;
      ApplyAllNoHooks(options[1..], next.0, next.1);
    }
  }

  /** Adding `WithBugsnagNotify(t)` to hook-free options keeps the build succeeding, and then
      an entry notifies exactly once when the logger writes it and its level reaches the
      (int8-converted) threshold, and not at all otherwise. */
  lemma BugsnagNotifyOnce(options: seq<LoggerOption>, t: LoggingLevel, level: int, msg: string)
    requires NewLogger(options).Success?
    requires forall i :: 0 <= i < |options| ==> !options[i].WithCallback?
    ensures NewLogger(options + [WithBugsnagNotify(t)]).Success?
    ensures var l := NewLogger(options + [WithBugsnagNotify(t)]).value;
      Emit(l, level, msg).notified ==
        (if Enabled(l.config.level, level) && level >= Int8(t) then [NotifyEvent(msg)] else [])
  {
    var o := WithBugsnagNotify(t);
    ApplyAllStopsAtFirstError(options, DefaultConfig, []);
    var before := ApplyAll(options, DefaultConfig, []).value;
    ApplyAllAppend(options, [o], DefaultConfig, []);
    assert ApplyAll([o], before.0, before.1) == Success((before.0, before.1 + [Hooks(NotifyAtOrAbove(Int8(t)))]));
    ApplyAllNoHooks(options, DefaultConfig, []);
    var l := NewLogger(options + [o]).value;
    assert l.buildOptions == before.1 + [Hooks(NotifyAtOrAbove(Int8(t)))] + [];
    SingleHook(before.1, NotifyAtOrAbove(Int8(t)), [], Entry(level, msg, l.fields));
  }

  // ---------------------------------------------------------------------
  // Package initialisation

  /** The level `init` uses: a set ZAP_LEVEL that parses as an integer replaces the profile level. */
  function InitialLevel(em: Infra.EnvManager): LoggingLevel {
    var profile := LoggingConfig(em.appEnv);
    if em.zapLevel != "" then
      match Atoi(em.zapLevel)
      case Some(l) => l
      case None => profile.level
    else profile.level
  }

  /** The options `init` passes; the Bugsnag notification option is not among them. */
  function InitOptions(em: Infra.EnvManager): seq<LoggerOption> {
    var profile := LoggingConfig(em.appEnv);
    [ WithLoggingLevel(InitialLevel(em)),
      WithEncoded(profile.encode),
      WithColor(profile.color),
      WithAddStacktrace(LoggingLevelError),
      WithAddCaller(0) ]
  }

  /** `init` followed by `initLogger`; a Failure would be the panic. */
  function Init(em: Infra.EnvManager): Result<Logger, LoggerError> {
    match NewLogger(InitOptions(em))
    case Failure(e) => Failure(e)
    case Success(l) => Success(With(l, Field("type", "app")))
  }

  /** Any integer ZAP_LEVEL parses to ("+2", "007" and "-0" included) becomes the level, with no range check, and
      otherwise the profile decides. */
  lemma InitialLevelOverride(em: Infra.EnvManager, n: int)
    requires MinInt64 <= n <= MaxInt64
    ensures em.zapLevel == Itoa(n) ==> InitialLevel(em) == n
    ensures Atoi(em.zapLevel).Some? ==> InitialLevel(em) == Atoi(em.zapLevel).value
    ensures em.zapLevel == "" ==> InitialLevel(em) == LoggingConfig(em.appEnv).level
    ensures Atoi(em.zapLevel).None? ==> InitialLevel(em) == LoggingConfig(em.appEnv).level
  {
    AtoiItoa(n);
  }

  /** The `init` options fold without error into the build options [stack trace at Error, caller, skip 0]. */
  lemma InitOptionsFold(em: Infra.EnvManager)
    ensures ApplyAll(InitOptions(em), DefaultConfig, []).Success?
    ensures ApplyAll(InitOptions(em), DefaultConfig, []).value.1 == [AddStacktrace(ErrorLevel), AddCaller, AddCallerSkip(0)]
  {
    var options := InitOptions(em);
    ApplyAllStopsAtFirstError(options, DefaultConfig, []);
    ApplyAllStopsAtFirstError(options[..3], DefaultConfig, []);
    ApplyAllAppend(options[..3], options[3..], DefaultConfig, []);
    assert options[..3] + options[3..] == options;
    ApplyAllSeparation(options[..3], DefaultConfig, []);
    var mid := ApplyAll(options[..3], DefaultConfig, []).value;
    assert ToZapLevel(LoggingLevelError) == ErrorLevel;
    var tail := options[3..];
    assert tail[1..] == [WithAddCaller(0)];
    assert ApplyAll(tail, mid.0, []) == ApplyAll([WithAddCaller(0)], mid.0, [AddStacktrace(ErrorLevel)]);
  }

  /** The package logger always builds. It uses the (truncated) initial level and the profile's
      encoding, colours only console output, never notifies, and tags entries type=app. */
  lemma InitProperties(em: Infra.EnvManager)
    ensures Init(em).Success?
    ensures var l := Init(em).value;
      && l.config.level == ToZapLevel(InitialLevel(em))
      && l.config.encoding == LoggingConfig(em.appEnv).encode
      && (l.config.encoderConfig.encodeLevel == CapitalColorLevelEncoder <==> l.config.encoding == "console")
      && l.buildOptions == [AddStacktrace(ErrorLevel), AddCaller, AddCallerSkip(0)]
      && l.fields == [Field("type", "app")]
      && NoHooks(l.buildOptions)
  {
    var options := InitOptions(em);
    var profile := LoggingConfig(em.appEnv);
    LastLevelIsLast(options, 0);
    LastEncodingIsLast(options, 1);
    assert WithColor(true) in options <==> profile.color;
    InitOptionsFold(em);
    NewLoggerSucceeds(options);
    NewLoggerEffect(options);
  }

  /** Without the hook option, no entry of the package logger ever reaches the alerting client. */
  lemma InitNeverNotifies(em: Infra.EnvManager, level: int, msg: string)
    ensures Init(em).Success?
    ensures Emit(Init(em).value, level, msg).notified == []
  {
    InitProperties(em);
    var l := Init(em).value;
    NoHooksNoEvents(l.buildOptions, Entry(level, msg, l.fields));
  }

  /** Production without an override: Info entries are written, Debug entries are not. */
  lemma ProductionScenario(em: Infra.EnvManager, msg: string)
    requires em.appEnv == "production" && em.zapLevel == ""
    ensures Init(em).Success?
    ensures Emit(Init(em).value, InfoLevel, msg).written != []
    ensures Emit(Init(em).value, DebugLevel, msg).written == []
    ensures Init(em).value.config.encoding == "json"
  {
    InitProperties(em);
  }

  /** Development: Debug entries are written, console encoded and coloured. */
  lemma DevelopmentScenario(em: Infra.EnvManager, msg: string)
    requires em.appEnv == "development" && em.zapLevel == ""
    ensures Init(em).Success?
    ensures Emit(Init(em).value, DebugLevel, msg).written != []
    ensures Init(em).value.config.encoding == "console"
    ensures Init(em).value.config.encoderConfig.encodeLevel == CapitalColorLevelEncoder
  {
    InitProperties(em);
  }

  /** ZAP_LEVEL=2 in development raises the threshold to Error: Warn is dropped, Error written. */
  lemma OverrideScenario(em: Infra.EnvManager, msg: string)
    requires em.appEnv == "development" && em.zapLevel == "2"
    ensures Init(em).Success?
    ensures Init(em).value.config.level == ErrorLevel
    ensures Emit(Init(em).value, WarnLevel, msg).written == []
    ensures Emit(Init(em).value, ErrorLevel, msg).written != []
  {
    InitialLevelOverride(em, 2);
    assert Itoa(2) == "2";
    InitProperties(em);
  }
}

=== FILE: zap_adapter.dfy ===
/** The zap-backed implementation of `app.Logger`: the validated translation of an
    `app.LoggerConfig` into an internal configuration, building it, and the logger's methods. */
module ZapAdapter {
  import opened Results
  import opened ZapCore
  import App

  const EncodeJSON: string := "json"
  const EncodeConsole: string := "console"

  /** The three checks `newConfig` can fail. */
  datatype ConfigError = UnexpectedLevel | UnexpectedEncode(encode: string) | NilOut

  /** The internal `config`. A `None` level is zap's zero AtomicLevel; `err` holds at most one error. */
  datatype Config = Config(
    level: Option<int>,
    encode: string,
    encoderCfg: EncoderConfig,
    out: Option<App.Writer>,
    err: Option<ConfigError>)

  /** Which zap level each accepted app level stands for. */
  const LevelTable: map<App.LoggingLevel, int> :=
    map[App.LoggingLvlDebug := DebugLevel, App.LoggingLvlInfo := InfoLevel, App.LoggingLvlError := ErrorLevel]

  /** Which zap encoder each accepted app encoding stands for. */
  const EncodeTable: map<App.LoggingEncode, string> :=
    map[App.LoggingEncJSON := EncodeJSON, App.LoggingEncText := EncodeConsole, App.LoggingEncColorText := EncodeConsole]

  /** The outcome of each check, in the order `newConfig` runs them. */
  function Checks(appCfg: App.LoggerConfig): seq<Option<ConfigError>> {
    [ if appCfg.loggingLevel in LevelTable then None else Some(UnexpectedLevel),
      if appCfg.loggingEncode in EncodeTable then None else Some(UnexpectedEncode(appCfg.loggingEncode)),
      if appCfg.out.Some? then None else Some(NilOut) ]
  }

  /** The last error in a list of check outcomes. */
  function LastSome<T>(s: seq<Option<T>>): (r: Option<T>)
    ensures r.Some? ==> r in s
    ensures r.None? <==> forall i :: 0 <= i < |s| ==> s[i].None?
  {
    if s == [] then None
    else if s[|s| - 1].Some? then s[|s| - 1]
    else LastSome(s[..|s| - 1])
  }

  /** With three checks, the reported error is the third's, else the second's, else the first's. */
  lemma LastSomeOfThree<T>(a: Option<T>, b: Option<T>, c: Option<T>)
    ensures LastSome([a, b, c]) == if c.Some? then c else if b.Some? then b else a
  {
    var s := [a, b, c];
    assert s[..2] == [a, b];
    assert s[..2][..1] == [a];
    assert LastSome([a]) == a;
    assert LastSome([a, b]) == if b.Some? then b else a;
  }

  /** `newConfig`: translate level and encoding through their tables, drop the time key on
      request, take the writer; every failing check overwrites the stored error. */
  function NewConfig(appCfg: App.LoggerConfig): (c: Config)
    ensures c.level == (if appCfg.loggingLevel in LevelTable then Some(LevelTable[appCfg.loggingLevel]) else None)
    ensures appCfg.loggingEncode in EncodeTable ==> c.encode == EncodeTable[appCfg.loggingEncode]
    ensures c.encoderCfg.encodeLevel == CapitalColorLevelEncoder <==> appCfg.loggingEncode == App.LoggingEncColorText
    ensures c.encoderCfg.timeKey == (if appCfg.noTimestamp then "" else "timelocal")
    ensures c.encoderCfg.(timeKey := "timelocal", encodeLevel := CapitalLevelEncoder) == SchemaEncoderConfig
    ensures c.out == appCfg.out
    ensures c.err == LastSome(Checks(appCfg))
  {
    var checks := Checks(appCfg);
    LastSomeOfThree(checks[0], checks[1], checks[2]);
    var c0 := Config(None, "", SchemaEncoderConfig, None, None);
    var c1 :=
      if appCfg.loggingLevel == App.LoggingLvlDebug then c0.(level := Some(DebugLevel))
      else if appCfg.loggingLevel == App.LoggingLvlInfo then c0.(level := Some(InfoLevel))
      else if appCfg.loggingLevel == App.LoggingLvlError then c0.(level := Some(ErrorLevel))
      else c0.(err := Some(UnexpectedLevel));
    var c2 :=
      if appCfg.loggingEncode == App.LoggingEncJSON then c1.(encode := EncodeJSON)
      else if appCfg.loggingEncode == App.LoggingEncText then c1.(encode := EncodeConsole)
      else if appCfg.loggingEncode == App.LoggingEncColorText then
        c1.(encode := EncodeConsole, encoderCfg := c1.encoderCfg.(encodeLevel := CapitalColorLevelEncoder))
      else c1.(err := Some(UnexpectedEncode(appCfg.loggingEncode)));
    var c3 := if appCfg.noTimestamp then c2.(encoderCfg := c2.encoderCfg.(timeKey := "")) else c2;
    var c4 := c3.(out := appCfg.out);
    if c4.out.None? then c4.(err := Some(NilOut)) else c4
  }

  /** The configuration's encoder, by name. */
  datatype Encoder = JSONEncoder(cfg: EncoderConfig) | ConsoleEncoder(cfg: EncoderConfig)

  /** The zap options the logger is created with. */
  datatype ZapOption = AddCaller | AddCallerSkip(skip: int)

  datatype Core = Core(encoder: Encoder, out: Option<App.Writer>, level: Option<int>)

  datatype Logger = Logger(core: Core, options: seq<ZapOption>)

  /** `buildEncoder`: exactly "json" and "console" have an encoder. */
  function BuildEncoder(c: Config): (r: Result<Encoder, ConfigError>)
    ensures r.Success? <==> c.encode == EncodeJSON || c.encode == EncodeConsole
    ensures r.Success? ==> r.value.cfg == c.encoderCfg && (r.value.JSONEncoder? <==> c.encode == EncodeJSON)
    ensures r.Failure? ==> r.error == UnexpectedEncode(c.encode)
  {
    if c.encode == EncodeJSON then Success(JSONEncoder(c.encoderCfg))
    else if c.encode == EncodeConsole then Success(ConsoleEncoder(c.encoderCfg))
    else Failure(UnexpectedEncode(c.encode))
  }

  /** `options`: caller information, skipping this adapter's own frame. */
  function Options(): seq<ZapOption> {
    [AddCaller, AddCallerSkip(1)]
  }

  /** `build`: a recorded error is returned unchanged; otherwise the encoder decides. */
  function Build(c: Config): (r: Result<Logger, ConfigError>)
    ensures c.err.Some? ==> r == Failure(c.err.value)
    ensures r.Success? <==> c.err.None? && (c.encode == EncodeJSON || c.encode == EncodeConsole)
    ensures r.Success? ==> r.value.core.level == c.level && r.value.core.out == c.out
    ensures r.Success? ==> r.value.core.encoder.cfg == c.encoderCfg
    ensures r.Success? ==> r.value.options == [AddCaller, AddCallerSkip(1)]
  {
    if c.err.Some? then Failure(c.err.value)
    else
      match BuildEncoder(c)
      case Failure(e) => Failure(e)
      case Success(enc) => Success(Logger(Core(enc, c.out, c.level), Options()))
  }

  /** `New`. */
  function New(appCfg: App.LoggerConfig): Result<Logger, ConfigError> {
    Build(NewConfig(appCfg))
  }

  /** An app configuration is accepted when its level and encoding are in the tables and it has a writer. */
  predicate Valid(appCfg: App.LoggerConfig) {
    appCfg.loggingLevel in LevelTable && appCfg.loggingEncode in EncodeTable && appCfg.out.Some?
  }

  /** `New` succeeds exactly for valid configurations; otherwise it reports the error of the
      last failing check. A built logger has a level and a writer, uses the JSON encoder
      exactly for "json", and colours levels exactly for "color". */
  lemma NewSucceedsIffValid(appCfg: App.LoggerConfig)
    ensures New(appCfg).Success? <==> Valid(appCfg)
    ensures !Valid(appCfg) ==> New(appCfg) == Failure(LastSome(Checks(appCfg)).value)
    ensures New(appCfg).Success? ==>
      var l := New(appCfg).value;
      && l.core.level == Some(LevelTable[appCfg.loggingLevel])
      && l.core.out == appCfg.out
      && (l.core.encoder.JSONEncoder? <==> appCfg.loggingEncode == App.LoggingEncJSON)
      && (l.core.encoder.cfg.encodeLevel == CapitalColorLevelEncoder <==> appCfg.loggingEncode == App.LoggingEncColorText)
  {
  }

  /** Both errors are recorded but only the later one survives: a bad encoding hides a bad
      level, and a nil writer hides both. */
  lemma LastErrorWins(appCfg: App.LoggerConfig)
    ensures appCfg.out.None? ==> New(appCfg) == Failure(NilOut)
    ensures appCfg.out.Some? && appCfg.loggingEncode !in EncodeTable ==>
      New(appCfg) == Failure(UnexpectedEncode(appCfg.loggingEncode))
  {
  }

  // ---------------------------------------------------------------------
  // Logger methods

  /** The zap level each interface method logs at. */
  function MethodLevel(m: App.Method): int {
    match m
    case Debug => DebugLevel
    case Info => InfoLevel
    case Warn => WarnLevel
    case Error => ErrorLevel
    case Fatal => FatalLevel
  }

  /** What a method call does: the entries written and whether the process is terminated. */
  datatype Outcome = Outcome(written: seq<Entry>, terminated: bool)

  /** One method call. The core writes the entry when the method's level meets the logger's;
      `Fatal` ends the process. A logger without a level is never built by `New`. */
  function Call(l: Logger, m: App.Method, msg: string): (r: Outcome)
    ensures r.terminated <==> m == App.Fatal
    ensures |r.written| <= 1
    ensures r.written != [] <==> l.core.level.Some? && Enabled(l.core.level.value, MethodLevel(m))
    ensures r.written != [] ==> r.written[0] == Entry(MethodLevel(m), msg, [])
  {
    var written :=
      if l.core.level.Some? && Enabled(l.core.level.value, MethodLevel(m)) then [Entry(MethodLevel(m), msg, [])]
      else [];
    Outcome(written, m == App.Fatal)
  }

  /** The rank of the app level a method corresponds to; Warn and Fatal sit between and above. */
  function AppRank(m: App.Method): App.LoggingLevel
    requires m != App.Warn && m != App.Fatal
  {
    match m
    case Debug => App.LoggingLvlDebug
    case Info => App.LoggingLvlInfo
    case Error => App.LoggingLvlError
  }

  /** A logger built from a valid configuration writes a Debug, Info or Error entry exactly
      when its app rank is at or above the configured app level; Warn is written unless the
      level is Error; Fatal is always written. */
  lemma SuppressionFollowsAppLevel(appCfg: App.LoggerConfig, m: App.Method, msg: string)
    requires Valid(appCfg)
    ensures New(appCfg).Success?
    ensures m != App.Warn && m != App.Fatal ==>
      (Call(New(appCfg).value, m, msg).written != [] <==> AppRank(m) >= appCfg.loggingLevel)
    ensures m == App.Warn ==>
      (Call(New(appCfg).value, m, msg).written != [] <==> appCfg.loggingLevel != App.LoggingLvlError)
    ensures m == App.Fatal ==> Call(New(appCfg).value, m, msg).written != []
  {
  }

  /** `Close` returns whatever flushing the sink returned. */
  function Close(l: Logger, syncErr: Option<string>): (r: Option<string>)
    ensures r == syncErr
  {
    syncErr
  }
}

=== FILE: zapcore.dfy ===
/** The part of the zap logging library the configuration code touches, as abstract values:
    numeric levels, the int8 level type, the encoder key layout and the entries a core writes. */
module ZapCore {

  // zapcore.Level values
  const DebugLevel: int := -1
  const InfoLevel: int := 0
  const WarnLevel: int := 1
  const ErrorLevel: int := 2
  const FatalLevel: int := 5

  /** zapcore.Level is an int8: converting a wider integer keeps its low eight bits. */
  function Int8(x: int): (r: int)
    ensures -128 <= r <= 127
    ensures -128 <= x <= 127 ==> r == x
  {
    (x + 128) % 256 - 128
  }

  /** A core writes an entry exactly when the entry's level is at or above the threshold. */
  predicate Enabled(threshold: int, level: int) {
    level >= threshold
  }

  /** How the level name is rendered: plain capitals, or capitals wrapped in ANSI colour codes. */
  datatype LevelEncoder = CapitalLevelEncoder | CapitalColorLevelEncoder

  /** The keys of an encoded entry and the level rendering. The time, duration and caller
      encoders are fixed (ISO 8601, seconds, short caller) in every configuration and are not modelled. */
  datatype EncoderConfig = EncoderConfig(
    timeKey: string,
    levelKey: string,
    callerKey: string,
    messageKey: string,
    stacktraceKey: string,
    encodeLevel: LevelEncoder)

  /** The key layout both configuration paths start from; it matches a downstream analytics schema. */
  const SchemaEncoderConfig: EncoderConfig :=
    EncoderConfig("timelocal", "level", "caller", "msg", "stack", CapitalLevelEncoder)

  /** A structured key/value pair attached with `Logger.With`. */
  datatype Field = Field(key: string, value: string)

  /** One log record as handed to the sink. */
  datatype Entry = Entry(level: int, message: string, fields: seq<Field>)
}
